=== FILE: README.md ===
# kapt activation gate and in-memory message collector, in Dafny

This project models two small parts of the fluid-compiler Kotlin compiler
wrapper.

1. **The kapt activation gate.** This is `KaptComponentRegistrar.registerProjectComponents`
   together with `checkOptions`, the `AbortAnalysisHandlerExtension` fallback
   and the `withKaptConfiguration` handoff.
   - When the compiler starts, the gate reads the kapt configuration that the
     launcher stashed in a thread-local slot.
   - It merges the compiler's content roots and output directory into the
     launcher's `KaptOptions.Builder`.
   - It runs three validations, in a fixed order, and the first one that fails
     stops the rest:
     - a jar output with no classes directory;
     - a missing sources, classes or stubs directory;
     - missing javac internals.
   - A failed validation logs one diagnostic and installs the fallback
     extension. The exception is a missing directory in `WITH_COMPILATION`
     mode: then nothing is logged and nothing is registered.
   - If all pass, it fills the `kapt.kotlin.generated` processing option, builds
     the options, and registers the kapt analysis handler and then the kapt
     container contributor.
2. **`InMemoryMessageCollector`.** This is an append-only buffer of compiler
   messages, plus an error latch that `clear()` does not reset.

The model is purely functional:

- The gate is a function that returns the sequence of its effects: `Logged`
  diagnostics, the `OptionsLogged` verbose dump, and `Registered` extensions.
- The slot is an explicit value. A block's exit is an `Ok | Raised` outcome,
  returned together with the slot the block leaves behind.
- Code that runs under the handoff is a small block language:
  - read the slot;
  - run the gate;
  - raise;
  - nest `withKaptConfiguration`;
  - sequence two blocks;
  - catch a failure.

  Every property of well-formed nesting is proved over that language.
- The collector is a record. A sequence of `report`/`clear` operations is its
  history, and the latch is characterised over that whole history.

Files:

| file | module | contents |
|---|---|---|
| `wrappers.dfy` | `Wrappers` | `Option` with Kotlin's `?:` |
| `message_collector.dfy` | `MessageCollector` | collector state, operations, history lemmas |
| `kapt_model.dfy` | `KaptModel` | configuration, options builder, compiler facts, events |
| `kapt_registrar.dfy` | `KaptRegistrar` | root partitioning, `checkOptions`, option finalisation, the gate, the fallback |
| `kapt_gate_properties.dfy` | `KaptGateProperties` | lemmas about the gate |
| `kapt_handoff.dfy` | `KaptHandoff` | `withKaptConfiguration`, the block language, nesting lemmas |

## Behaviour worth knowing

- **`hasErrors()` after `clear()`.** `clear()` empties the buffer but never
  resets the latch, so `hasErrors()` covers the whole history of the collector.
- **Classpath and java source roots.** These are lists. The compiler's roots
  are appended after the launcher's entries, and duplicates are kept.
- **The javac-access diagnostic.** When javac access is denied, the error
  comes from `Kapt.checkJavacComponentsAccess`, not from the gate. The model
  takes the check's outcome as the input `Denied(error)` and logs that one
  error.
- **Processing-option values.** The builder's processing options are a map
  from `String` to `String`.

## Model

| member | source | states |
|---|---|---|
| `MessageCollector.New` | sources/compiler/InMemoryMessageCollector.kt:10-11 | A new collector has no messages and its latch is down. |
| `MessageCollector.Report` | sources/compiler/InMemoryMessageCollector.kt:27-32 | `report` adds exactly one message, at the end, and every earlier message keeps its place. An error severity raises the latch; any other severity leaves the latch as it was. |
| `MessageCollector.Clear` | sources/compiler/InMemoryMessageCollector.kt:14-16 | `clear` empties the buffer and does not change `hasErrors`. |
| `MessageCollector.HasErrorsIffErrorReported` | sources/compiler/InMemoryMessageCollector.kt:10-32 | Starting from a new collector, `hasErrors` is true exactly when some error-severity message was reported anywhere in the history, including messages a later `clear` removed. |
| `MessageCollector.HasErrorsMonotone` | sources/compiler/InMemoryMessageCollector.kt:10-32 | Once the latch is up, no sequence of reports and clears lowers it. |
| `MessageCollector.BufferAppendsReports` | sources/compiler/InMemoryMessageCollector.kt:27-32 | Without a clear, the buffer is the old buffer followed by the reported messages, in reporting order. |
| `MessageCollector.BufferIsReportsSinceLastClear` | sources/compiler/InMemoryMessageCollector.kt:11-32 | The buffer is exactly the messages reported after the last clear, in order. With no clear, the starting buffer comes first. |
| `MessageCollector.SnapshotIsPrefixOfLater` | sources/compiler/InMemoryMessageCollector.kt:23-24 | A `messages` snapshot is a value: later reports leave it as it was. It is a prefix of every later snapshot taken before a clear, and each report adds one element. |
| `MessageCollector.ErrorThenWarningThenClear` | sources/compiler/InMemoryMessageCollector.kt:14-32 | Reporting an error and then a warning shows both messages in order with the latch up. After `clear`, the buffer is empty and the latch is still up. |
| `KaptRegistrar.MergeCompilerFacts` | sources/kapt/KaptComponentRegistrar.kt:44-51 | The classpath and the java source roots keep the launcher's entries as a prefix. With no `CONTENT_ROOTS` entry, or an empty one, they are unchanged. A pre-set `classesOutputDir` is kept; an unset one takes the compiler's output directory. No other builder field changes. |
| `KaptRegistrar.FirstMissingDir` | sources/kapt/KaptComponentRegistrar.kt:121-128 | An unset sources directory is named first. An unset classes directory is named when the sources directory is set. An unset stubs directory is named when both others are set. Nothing is named, which is the `IllegalStateException` branch, exactly when all three directories are set. |
| `KaptRegistrar.JoinToString` | sources/kapt/KaptComponentRegistrar.kt:129-130 | An empty list joins to the empty string, and a single item joins to itself. Otherwise the result starts with the first item and ends with the last, and with two or more items the first is followed by `", "`. |
| `KaptRegistrar.JoinToStringCons` | sources/kapt/KaptComponentRegistrar.kt:129-130 | With two or more items, the joined string is the first item, then `", "`, then the remaining items joined. With the empty and one-item cases this fixes every item's place, so no item is dropped or reordered. |
| `KaptRegistrar.ModuleName` | sources/kapt/KaptComponentRegistrar.kt:129-130 | A configured module name is used as it is. Without one, the name is the configured module list joined with `", "`. |
| `KaptRegistrar.CheckOptions` | sources/kapt/KaptComponentRegistrar.kt:98-144 | `checkOptions` passes exactly when there is no jar-output conflict, all three directories are set after the merge, and javac access is granted. A pass causes no event. A failure causes either no event or one diagnostic followed by the fallback, and no event at all only in `WITH_COMPILATION` mode. Of the builder, only `classesOutputDir` can change: an unset one takes the compiler's output directory unless a jar output is configured, and a set one is kept. |
| `KaptRegistrar.DefaultGeneratedSourcesOption` | sources/kapt/KaptComponentRegistrar.kt:66-69 | An existing `kapt.kotlin.generated` entry is left untouched. An absent entry is set to the sources directory. No other key changes. The `error(...)` branch is taken exactly when the key is absent and no sources directory is set. |
| `KaptRegistrar.Build` | sources/kapt/KaptComponentRegistrar.kt:71 | Building succeeds exactly when all three directories are set, and it carries every builder field over. |
| `KaptRegistrar.InstallEvents` | sources/kapt/KaptComponentRegistrar.kt:75-87 | A successful activation registers the processing extension with the final options and the launcher's processors, then the container contributor, as the last two events. The options dump comes first exactly when `VERBOSE` is set. The fallback is never registered. |
| `KaptRegistrar.RegisterProjectComponents` | sources/kapt/KaptComponentRegistrar.kt:40-88 | With no configuration in the slot, or with an empty processor list, nothing happens. Otherwise the result is one of three: nothing; one diagnostic followed by the fallback; or kapt installed. |
| `KaptRegistrar.AbortDoAnalysis` | sources/kapt/KaptComponentRegistrar.kt:152-161 | The fallback's `doAnalysis` always returns success with the trace's binding context and `shouldGenerateCode = false`. |
| `KaptRegistrar.AbortAnalysisCompleted` | sources/kapt/KaptComponentRegistrar.kt:163-170 | The fallback's `analysisCompleted` always returns success with `shouldGenerateCode = false`. |
| `KaptGateProperties.FilesOfKindSelectsInOrder` | sources/kapt/KaptComponentRegistrar.kt:48-49 | Filtering the content roots by kind yields the files of exactly the roots of that kind. They keep their content-root order, duplicates stay, and no root of another kind appears. |
| `KaptGateProperties.MergeAppendsPartitionedRoots` | sources/kapt/KaptComponentRegistrar.kt:44-51 | The classpath gets exactly the `JvmClasspathRoot` files and the java source roots get exactly the `JavaSourceRoot` files. Each list keeps content-root order and comes after the launcher's own entries. A missing root list counts as empty. `classesOutputDir` keeps a pre-set value and otherwise takes the output directory. Nothing else changes. |
| `KaptGateProperties.JarOutputAbortsWithError` | sources/kapt/KaptComponentRegistrar.kt:101-106 | With no classes directory and a jar output, the events are exactly one error and then the fallback, whatever the mode, the other directories or the javac check. |
| `KaptGateProperties.MissingDirectorySkipsProcessing` | sources/kapt/KaptComponentRegistrar.kt:121-135 | When a directory is unset and the mode is not `WITH_COMPILATION`, the events are one warning naming the first missing directory (sources, then classes, then stubs) and the module, then the fallback. In `WITH_COMPILATION` there is no event at all. |
| `KaptGateProperties.JavacDeniedFallsBack` | sources/kapt/KaptComponentRegistrar.kt:138-141 | A failed javac-access check leaves only its error and the fallback. No processing extension is installed. |
| `KaptGateProperties.SuccessInstallsBothExtensionsInOrder` | sources/kapt/KaptComponentRegistrar.kt:66-87 | After the validations pass: the final options carry the resolved directories and the merged roots; `kapt.kotlin.generated` is filled only when absent; the last two events register the analysis handler and then the container contributor; and the verbose dump comes first exactly when `VERBOSE` is set. |
| `KaptGateProperties.FallbackAndKaptAreExclusive` | sources/kapt/KaptComponentRegistrar.kt:62-87 | No activation registers both the fallback and the processing extension. |
| `KaptGateProperties.FallbackIgnoresFiles` | sources/kapt/KaptComponentRegistrar.kt:151-171 | Both fallback operations give the same answer, whatever files they are given. |
| `KaptHandoff.WithKaptConfiguration` | sources/kapt/KaptComponentRegistrar.kt:175-187 | A null configuration runs the block on the slot as it is. A non-null configuration is what the block sees, and afterwards the slot is back to its previous value, whether the block returned or raised. |
| `KaptHandoff.ExecRestoresSlot` | sources/kapt/KaptComponentRegistrar.kt:175-187 | Any block built from nested handoffs, reads, gate runs, raises, sequencing and catches leaves the slot exactly as it found it. This is what makes nesting well-formed. |
| `KaptHandoff.WithObservesConfigurationThenRestores` | sources/kapt/KaptComponentRegistrar.kt:178-186 | Under a non-null configuration, the body's outcome is its outcome in that configuration, and the enclosing slot is restored. |
| `KaptHandoff.WithNullIsTransparent` | sources/kapt/KaptComponentRegistrar.kt:176 | A null configuration changes nothing. |
| `KaptHandoff.ReadAfterBlockSeesEnclosingValue` | sources/kapt/KaptComponentRegistrar.kt:181-186 | After any inner block returns normally, a read sees the enclosing value. |
| `KaptHandoff.ReadAfterCaughtFailureSeesEnclosingValue` | sources/kapt/KaptComponentRegistrar.kt:184-186 | After any inner block raises and the failure is caught, a read sees the enclosing value. |
| `KaptHandoff.NestedHandoffsRestoreEnclosingValue` | sources/kapt/KaptComponentRegistrar.kt:175-187 | Take `with(A) { with(B) { read }; read }`. The inner read sees B, the outer read sees A, and afterwards the slot holds its earlier value. When the inner body raises and the raise is caught, the outer read still sees A and the slot is restored. |
| `KaptHandoff.GateSeesHandedOverConfiguration` | sources/kapt/KaptComponentRegistrar.kt:33-41 | Compiling inside `withKaptConfiguration(c)` runs the gate on exactly `c`, and the slot is unchanged afterwards. |

## Left out

- Directory creation (`options.sourcesOutputDir.mkdirs()`). It is a file-system side effect.
- Construction of the message collector and the logger (`PrintingMessageCollector`, `MessageCollectorBackedKaptLogger`). Diagnostics are modelled only as `Logged` events carrying a level and the text. The logger's prefixing and its mapping of levels to compiler severities are not modelled.
- `options.logString()`. It is a library formatter, so the verbose dump is the event `OptionsLogged(options)` and carries the options rather than their text.
- `Kapt.checkJavacComponentsAccess`. It is a foreign call, so its outcome is the input `JavacAccess` (`Granted | Denied(error)`).
- The processing behaviour of `KaptExtension` and of `KaptComponentContributor`. Both are foreign, so they appear only as registered tokens. `KaptExtension` records the options and processors it receives; the compiler configuration and the logger it also takes are not modelled.
- `KaptOptions.Builder.build()`. It is not part of this model's source, so it is modelled by what `build()` needs: it fails when a directory is unset.
- `project.basePath`, which becomes `projectBaseDir`. It is a pass-through of an opaque path.
- The `project`, `projectContext` and `componentProvider` parameters of the fallback's operations. They are ignored by the code, so they are dropped. `AnalysisResult` is reduced to the success result, the only one the fallback produces.
- `ThreadLocal` isolation between threads. The model has one slot for one thread of control.
- `File.absolutePath`. Paths are taken as already absolute.
- `JVMConfigurationKeys.MODULES`. Its `Module` objects appear only as their rendered strings, for the warning's module name.
- `CompilerMessageSeverity.isError`. It is not part of this model, so the collector takes the classification as a parameter, and every collector property holds for any classification.
- `KaptHandoff.WithKaptConfiguration`: the block is a function from the slot to its outcome and final slot. The block's effects other than on the slot are not modelled.

=== FILE: kapt_gate_properties.dfy ===
/** Properties of the kapt activation gate, each relating the gate's events to
    the inputs that decide them: root partitioning, the classes directory
    default, the three validations and their order, the generated-sources
    option, and the fallback extension. */
module KaptGateProperties {
  import opened Wrappers
  import opened KaptModel
  import opened KaptRegistrar

  // ---------------------------------------------------------------------------
  // Root partitioning

  /** Every `files[j]` is the file of the root at position `idx[j]`, which is
      of `kind`. */
  ghost predicate Sound(roots: seq<ContentRoot>, kind: RootKind, idx: seq<int>, files: seq<Path>) {
    && |idx| == |files|
    && forall j :: 0 <= j < |idx| ==> 0 <= idx[j] < |roots| && OfKind(roots[idx[j]], kind) && roots[idx[j]].file == files[j]
  }

  ghost predicate Increasing(idx: seq<int>) {
    forall j, j' :: 0 <= j < j' < |idx| ==> idx[j] < idx[j']
  }

  /** No root of `kind` is skipped. */
  ghost predicate Complete(roots: seq<ContentRoot>, kind: RootKind, idx: seq<int>) {
    forall i :: 0 <= i < |roots| && OfKind(roots[i], kind) ==> i in idx
  }

  /** `files` is the `file` of exactly the roots of `kind`, in their order in
      `roots`: `idx[j]` is the position in `roots` that `files[j]` comes from,
      positions strictly increase, and no root of `kind` is skipped. */
  ghost predicate SelectsInOrder(roots: seq<ContentRoot>, kind: RootKind, idx: seq<int>, files: seq<Path>) {
    Sound(roots, kind, idx, files) && Increasing(idx) && Complete(roots, kind, idx)
  }

  function Shift(idx: seq<int>): (r: seq<int>)
    ensures |r| == |idx|
    ensures forall j :: 0 <= j < |idx| ==> r[j] == idx[j] + 1
  {
    seq(|idx|, j requires 0 <= j < |idx| => idx[j] + 1)
  }

  /** Position 0 when the first root is of `kind`, else nothing. */
  function HeadPosition(roots: seq<ContentRoot>, kind: RootKind): seq<int>
    requires |roots| > 0
  {
    if OfKind(roots[0], kind) then [0] else []
  }

  /** The positions of the roots of `kind`, in increasing order. */
  function Positions(roots: seq<ContentRoot>, kind: RootKind): seq<int>
    decreases |roots|
  {
    if |roots| == 0 then []
    else HeadPosition(roots, kind) + Shift(Positions(roots[1..], kind))
  }

  /** One induction step of `FilesOfKindSelectsInOrder`, for each of its
      three parts: prepending the head root keeps the selection sound,
      increasing and complete. */
  lemma ConsSound(roots: seq<ContentRoot>, kind: RootKind, restIdx: seq<int>, restFiles: seq<Path>)
    requires |roots| > 0 && Sound(roots[1..], kind, restIdx, restFiles)
    ensures Sound(roots, kind, HeadPosition(roots, kind) + Shift(restIdx),
                  (if OfKind(roots[0], kind) then [roots[0].file] else []) + restFiles)
  {
  }

  lemma ConsIncreasing(roots: seq<ContentRoot>, kind: RootKind, restIdx: seq<int>)
    requires |roots| > 0 && Increasing(restIdx)
    requires forall k :: 0 <= k < |restIdx| ==> 0 <= restIdx[k]
    ensures Increasing(HeadPosition(roots, kind) + Shift(restIdx))
  {
  }

  lemma ConsComplete(roots: seq<ContentRoot>, kind: RootKind, restIdx: seq<int>)
    requires |roots| > 0 && Complete(roots[1..], kind, restIdx)
    ensures Complete(roots, kind, HeadPosition(roots, kind) + Shift(restIdx))
  {
  }

  /** Filtering by root kind keeps exactly the roots of that kind, in order,
      duplicates included. */
  lemma {:induction false} FilesOfKindSelectsInOrder(roots: seq<ContentRoot>, kind: RootKind)
    ensures SelectsInOrder(roots, kind, Positions(roots, kind), FilesOfKind(roots, kind))
    decreases |roots|
  {
    if |roots| > 0 {
      var rest := roots[1..];
      FilesOfKindSelectsInOrder(rest, kind);
      var restIdx := Positions(rest, kind);
      ConsSound(roots, kind, restIdx, FilesOfKind(rest, kind));
      ConsIncreasing(roots, kind, restIdx);
      ConsComplete(roots, kind, restIdx);
    }
  }

  /** `KaptComponentRegistrar.kt` lines 44-51: the compiler's classpath roots
      and java source roots are appended, each in content-root order and
      without the other kind, after what the launcher pre-populated; a missing
      content-root list counts as empty; the classes directory keeps a pre-set
      value and otherwise takes the compiler's output directory; nothing else
      in the builder changes. */
  lemma MergeAppendsPartitionedRoots(b: OptionsBuilder, env: CompilerEnv)
    ensures var m := MergeCompilerFacts(b, env);
            var roots := if env.contentRoots.Some? then env.contentRoots.value else [];
      && b.compileClasspath <= m.compileClasspath
      && SelectsInOrder(roots, Classpath, Positions(roots, Classpath), m.compileClasspath[|b.compileClasspath|..])
      && b.javaSourceRoots <= m.javaSourceRoots
      && SelectsInOrder(roots, JavaSources, Positions(roots, JavaSources), m.javaSourceRoots[|b.javaSourceRoots|..])
      && (b.classesOutputDir.Some? ==> m.classesOutputDir == b.classesOutputDir)
      && (b.classesOutputDir.None? ==> m.classesOutputDir == env.outputDirectory)
      && m.sourcesOutputDir == b.sourcesOutputDir
      && m.stubsOutputDir == b.stubsOutputDir
      && m.mode == b.mode && m.flags == b.flags && m.processingOptions == b.processingOptions
  {
    var m := MergeCompilerFacts(b, env);
    var roots := env.contentRoots.GetOr([]);
    FilesOfKindSelectsInOrder(roots, Classpath);
    FilesOfKindSelectsInOrder(roots, JavaSources);
    assert m.compileClasspath[|b.compileClasspath|..] == FilesOfKind(roots, Classpath);
    assert m.javaSourceRoots[|b.javaSourceRoots|..] == FilesOfKind(roots, JavaSources);
  }

  // ---------------------------------------------------------------------------
  // The validations, in order

  /** The classes directory the gate works with once line 50 of
      `KaptComponentRegistrar.kt` has run. */
  function ResolvedClassesDir(config: KaptConfiguration, env: CompilerEnv): Option<Path> {
    config.options.classesOutputDir.OrElse(env.outputDirectory)
  }

  /** `KaptComponentRegistrar.kt` lines 101-106: no classes directory and a
      jar output is a fatal misconfiguration: exactly one error, then the
      fallback, and no later validation runs, whatever the mode, the other
      directories or the javac access check say. */
  lemma JarOutputAbortsWithError(config: KaptConfiguration, env: CompilerEnv, javac: JavacAccess)
    requires config.processors != []
    requires ResolvedClassesDir(config, env).None? && env.outputJar.Some?
    ensures RegisterProjectComponents(Some(config), env, javac) == [Logged(Error, JarOutputMessage), AbortAnalysis]
  {
  }

  /** `KaptComponentRegistrar.kt` lines 121-135: when a directory is still
      unset, a mode other than `WITH_COMPILATION` gets one warning naming the
      first missing directory in the order sources, classes, stubs, then the
      fallback; `WITH_COMPILATION` gets no event at all. The javac access
      check does not run either way. */
  lemma MissingDirectorySkipsProcessing(config: KaptConfiguration, env: CompilerEnv, javac: JavacAccess)
    requires config.processors != []
    requires !(ResolvedClassesDir(config, env).None? && env.outputJar.Some?)
    requires config.options.sourcesOutputDir.None? || ResolvedClassesDir(config, env).None? || config.options.stubsOutputDir.None?
    ensures var name := if config.options.sourcesOutputDir.None? then SourcesDirName
                        else if ResolvedClassesDir(config, env).None? then ClassesDirName
                        else StubsDirName;
      config.options.mode != WithCompilation ==>
        RegisterProjectComponents(Some(config), env, javac) == [Logged(Warning, MissingDirMessage(name, ModuleName(env))), AbortAnalysis]
    ensures config.options.mode == WithCompilation ==> RegisterProjectComponents(Some(config), env, javac) == []
  {
  }

  /** `KaptComponentRegistrar.kt` lines 138-141: with every directory known, a
      denied javac access check leaves only its own error and the fallback;
      kapt is not installed. */
  lemma JavacDeniedFallsBack(config: KaptConfiguration, env: CompilerEnv, error: string)
    requires config.processors != []
    requires config.options.sourcesOutputDir.Some? && ResolvedClassesDir(config, env).Some? && config.options.stubsOutputDir.Some?
    ensures RegisterProjectComponents(Some(config), env, Denied(error)) == [Logged(Error, error), AbortAnalysis]
  {
  }

  /** `KaptComponentRegistrar.kt` lines 66-93: when every validation passes,
      the finalized options carry the resolved directories and merged roots,
      `kapt.kotlin.generated` is the sources directory only if the launcher
      did not set it (a launcher value is kept), and the last two events
      register the processing extension and then the container contributor,
      preceded by the options dump exactly when the verbose flag is set. */
  lemma SuccessInstallsBothExtensionsInOrder(config: KaptConfiguration, env: CompilerEnv)
    requires config.processors != []
    requires config.options.sourcesOutputDir.Some? && ResolvedClassesDir(config, env).Some? && config.options.stubsOutputDir.Some?
    ensures var r := RegisterProjectComponents(Some(config), env, Granted);
      && |r| >= 2
      && r[|r| - 1] == Registered(ContainerContributor, KaptComponentContributor)
      && r[|r| - 2].Registered? && r[|r| - 2].point == AnalysisHandler
      && r[|r| - 2].extension.KaptExtension?
      && r[|r| - 2].extension.processors == config.processors
      && var o := r[|r| - 2].extension.options;
         var launcher := config.options.processingOptions;
         var roots := env.contentRoots.GetOr([]);
         && o.sourcesOutputDir == config.options.sourcesOutputDir.value
         && o.classesOutputDir == ResolvedClassesDir(config, env).value
         && o.stubsOutputDir == config.options.stubsOutputDir.value
         && o.compileClasspath == config.options.compileClasspath + FilesOfKind(roots, Classpath)
         && o.javaSourceRoots == config.options.javaSourceRoots + FilesOfKind(roots, JavaSources)
         && o.mode == config.options.mode && o.flags == config.options.flags
         && (GeneratedSourcesKey in launcher ==> o.processingOptions == launcher)
         && (GeneratedSourcesKey !in launcher ==> o.processingOptions == launcher[GeneratedSourcesKey := o.sourcesOutputDir])
         && r[..|r| - 2] == (if Verbose in config.options.flags then [OptionsLogged(o)] else [])
  {
  }

  predicate InstallsKapt(e: Event) {
    e.Registered? && e.extension.KaptExtension?
  }

  lemma AbortShapeInstallsNoKapt(r: seq<Event>)
    requires IsAbort(r)
    ensures forall e :: e in r ==> !InstallsKapt(e)
  {
  }

  lemma InstallShapeHasNoFallback(r: seq<Event>)
    requires IsInstall(r)
    ensures AbortAnalysis !in r
  {
  }

  /** The fallback is registered exactly on the abort paths and the processing
      extension exactly on the success path, so no activation installs both. */
  lemma FallbackAndKaptAreExclusive(slot: Option<KaptConfiguration>, env: CompilerEnv, javac: JavacAccess)
    ensures var r := RegisterProjectComponents(slot, env, javac);
      !(AbortAnalysis in r && exists e :: e in r && InstallsKapt(e))
  {
    var r := RegisterProjectComponents(slot, env, javac);
    if IsAbort(r) {
      AbortShapeInstallsNoKapt(r);
    } else if IsInstall(r) {
      InstallShapeHasNoFallback(r);
    }
  }

  // ---------------------------------------------------------------------------
  // The fallback extension

  /** `KaptComponentRegistrar.kt` lines 151-171: the fallback's two operations
      give the same successful, code-generation-free answer whatever files
      they are handed. */
  lemma FallbackIgnoresFiles(m: ModuleDescriptor, trace: BindingTrace, files: seq<KtFile>, others: seq<KtFile>)
    ensures AbortDoAnalysis(m, files, trace) == AbortDoAnalysis(m, others, trace)
    ensures AbortDoAnalysis(m, files, trace) == AbortAnalysisCompleted(m, trace, others)
  {
  }
}

=== FILE: kapt_handoff.dfy ===
/** The configuration handoff (`withKaptConfiguration`): the launcher puts the
    kapt configuration into a slot before starting the compiler, and the gate,
    which the compiler calls without arguments, reads it from there. The slot is
    one value for one execution context; a block's exceptional exit is an
    outcome, so `finally` becomes "the restored slot is part of every result". */
module KaptHandoff {
  import opened Wrappers
  import opened KaptModel
  import KaptRegistrar

  type Slot = Option<KaptConfiguration>

  /** A throwable that escapes a block. */
  datatype Failure = Failure(name: string)

  /** How a block ended: it returned a value or it raised. */
  datatype Outcome<+R> = Ok(value: R) | Raised(failure: Failure)

  /** The end of running a block: its outcome and the slot it left behind. */
  datatype Step<+R> = Step(outcome: Outcome<R>, slot: Slot)

  /** `withKaptConfiguration(configuration, block)` run while the slot holds
      `slot`. A null configuration runs the block as it is; otherwise the block
      runs with the slot set to the configuration and the previous value is put
      back afterwards, whether the block returned or raised. */
  function WithKaptConfiguration<R>(configuration: Slot, block: Slot -> Step<R>, slot: Slot): (r: Step<R>)
    ensures configuration.None? ==> r == block(slot)
    ensures configuration.Some? ==> r.outcome == block(configuration).outcome && r.slot == slot
  {
    match configuration
    case None => block(slot)
    case Some(_) =>
      var previous := slot;
      var inner := block(configuration);
      Step(inner.outcome, previous)
  }

  /** What a block observed. */
  datatype Observation =
    | SlotRead(seen: Slot)
    | GateRan(events: seq<Event>)

  /** Code that runs inside the compiler's thread of control: it may read the
      slot, start the compiler (which runs the gate on the slot), raise, nest
      another handoff, run two blocks in sequence, or catch a failure. Nothing
      but `With` writes the slot, as in the source where the slot is private. */
  datatype Block =
    | ReadSlot
    | RunGate(env: CompilerEnv, javac: JavacAccess)
    | Raise(failure: Failure)
    | With(configuration: Slot, body: Block)
    | Then(first: Block, next: Block)
    | Catch(body: Block, handler: Block)

  /** Runs `b` from slot value `slot`; a successful run yields everything it
      observed, in order. */
  function Exec(b: Block, slot: Slot): Step<seq<Observation>>
    decreases b
  {
    match b
    case ReadSlot => Step(Ok([SlotRead(slot)]), slot)
    case RunGate(env, javac) => Step(Ok([GateRan(KaptRegistrar.RegisterProjectComponents(slot, env, javac))]), slot)
    case Raise(f) => Step(Raised(f), slot)
    case With(configuration, body) => WithKaptConfiguration(configuration, (s: Slot) => Exec(body, s), slot)
    case Then(first, next) =>
      var a := Exec(first, slot);
      (match a.outcome
       case Raised(_) => a
       case Ok(seen) =>
         var n := Exec(next, a.slot);
         (match n.outcome
          case Raised(_) => n
          case Ok(more) => Step(Ok(seen + more), n.slot)))
    case Catch(body, handler) =>
      var a := Exec(body, slot);
      match a.outcome
      case Ok(_) => a
      case Raised(_) => Exec(handler, a.slot)
  }

  /** Nesting is well-formed: any block, however deeply it nests handoffs and
      whether it returns or raises, leaves the slot exactly as it found it. */
  lemma {:induction false} ExecRestoresSlot(b: Block, slot: Slot)
    ensures Exec(b, slot).slot == slot
    decreases b
  {
    match b
    case ReadSlot =>
    case RunGate(_, _) =>
    case Raise(_) =>
    case With(configuration, body) =>
      if configuration.None? {
        ExecRestoresSlot(body, slot);
      }
    case Then(first, next) =>
      ExecRestoresSlot(first, slot);
      ExecRestoresSlot(next, slot);
    case Catch(body, handler) =>
      ExecRestoresSlot(body, slot);
      ExecRestoresSlot(handler, slot);
  }

  /** A non-null configuration is what the block sees, and the slot is the
      enclosing value again afterwards, on the normal and the exceptional exit. */
  lemma WithObservesConfigurationThenRestores(configuration: KaptConfiguration, body: Block, slot: Slot)
    ensures Exec(With(Some(configuration), body), slot).outcome == Exec(body, Some(configuration)).outcome
    ensures Exec(With(Some(configuration), body), slot).slot == slot
  {
  }

  /** A null configuration changes nothing: the block runs on the slot as it is. */
  lemma WithNullIsTransparent(body: Block, slot: Slot)
    ensures Exec(With(None, body), slot) == Exec(body, slot)
  {
  }

  /** After any inner block returns, a read sees the enclosing value. */
  lemma ReadAfterBlockSeesEnclosingValue(inner: Block, slot: Slot)
    requires Exec(inner, slot).outcome.Ok?
    ensures Exec(Then(inner, ReadSlot), slot) == Step(Ok(Exec(inner, slot).outcome.value + [SlotRead(slot)]), slot)
  {
    ExecRestoresSlot(inner, slot);
  }

  /** After any inner block raises and the failure is caught, a read sees the
      enclosing value. */
  lemma ReadAfterCaughtFailureSeesEnclosingValue(inner: Block, slot: Slot)
    requires Exec(inner, slot).outcome.Raised?
    ensures Exec(Catch(inner, ReadSlot), slot) == Step(Ok([SlotRead(slot)]), slot)
  {
    ExecRestoresSlot(inner, slot);
  }

  /** Two nested handoffs: the inner read sees `b`, a read after the inner
      call sees `a`, and after the outer call the slot is what preceded it,
      also when the inner block raised. */
  lemma NestedHandoffsRestoreEnclosingValue(a: KaptConfiguration, b: KaptConfiguration, f: Failure, slot: Slot)
    ensures Exec(With(Some(a), Then(With(Some(b), ReadSlot), ReadSlot)), slot)
         == Step(Ok([SlotRead(Some(b)), SlotRead(Some(a))]), slot)
    ensures Exec(With(Some(a), Catch(With(Some(b), Then(ReadSlot, Raise(f))), ReadSlot)), slot)
         == Step(Ok([SlotRead(Some(a))]), slot)
  {
    assert Exec(ReadSlot, Some(b)) == Step(Ok([SlotRead(Some(b))]), Some(b));
    var inB := Exec(With(Some(b), ReadSlot), Some(a));
    assert inB == Step(Ok([SlotRead(Some(b))]), Some(a));
    assert Exec(ReadSlot, Some(a)) == Step(Ok([SlotRead(Some(a))]), Some(a));
    assert [SlotRead(Some(b))] + [SlotRead(Some(a))] == [SlotRead(Some(b)), SlotRead(Some(a))];
    assert Exec(Then(With(Some(b), ReadSlot), ReadSlot), Some(a)) == Step(Ok([SlotRead(Some(b)), SlotRead(Some(a))]), Some(a));
    var raising := Exec(With(Some(b), Then(ReadSlot, Raise(f))), Some(a));
    assert Exec(Then(ReadSlot, Raise(f)), Some(b)) == Step(Raised(f), Some(b));
    assert raising == Step(Raised(f), Some(a));
    assert Exec(Catch(With(Some(b), Then(ReadSlot, Raise(f))), ReadSlot), Some(a)) == Step(Ok([SlotRead(Some(a))]), Some(a));
  }

  /** The gate reads the configuration the launcher handed over: compiling
      inside `withKaptConfiguration(configuration)` runs the gate on exactly
      that configuration, and leaves the slot as it was. */
  lemma GateSeesHandedOverConfiguration(configuration: KaptConfiguration, env: CompilerEnv, javac: JavacAccess, slot: Slot)
    ensures Exec(With(Some(configuration), RunGate(env, javac)), slot)
         == Step(Ok([GateRan(KaptRegistrar.RegisterProjectComponents(Some(configuration), env, javac))]), slot)
  {
  }
}

=== FILE: kapt_model.dfy ===
/** The values the kapt activation gate works on: the configuration handed over
    by the launcher, the options builder it completes, the facts it reads from
    the host compiler's configuration, and the events it produces. Host types
    (files, processors, the compiler configuration object) become plain values. */
module KaptModel {
  import opened Wrappers

  /** A file system path. Paths are taken as already absolute, so
      `File.absolutePath` is the identity here. */
  type Path = string

  /** An annotation processor instance; opaque to the gate. */
  datatype Processor = Processor(name: string)

  datatype AptMode = WithCompilation | StubsAndApt | StubsOnly | AptOnly

  datatype KaptFlag = Verbose | InfoAsWarnings | OtherFlag(name: string)

  /** `KaptOptions.Builder`: every output directory may still be unset. */
  datatype OptionsBuilder = OptionsBuilder(
    compileClasspath: seq<Path>,
    javaSourceRoots: seq<Path>,
    classesOutputDir: Option<Path>,
    sourcesOutputDir: Option<Path>,
    stubsOutputDir: Option<Path>,
    mode: AptMode,
    flags: set<KaptFlag>,
    processingOptions: map<string, string>)

  /** The finalized `KaptOptions`: the three output directories are present. */
  datatype KaptOptions = KaptOptions(
    compileClasspath: seq<Path>,
    javaSourceRoots: seq<Path>,
    classesOutputDir: Path,
    sourcesOutputDir: Path,
    stubsOutputDir: Path,
    mode: AptMode,
    flags: set<KaptFlag>,
    processingOptions: map<string, string>)

  /** What the launcher stashes in the handoff slot before starting the
      compiler: the processors to run and the options it pre-populated. */
  datatype KaptConfiguration = KaptConfiguration(processors: seq<Processor>, options: OptionsBuilder)

  /** One entry of the compiler's `CONTENT_ROOTS` list. */
  datatype ContentRoot =
    | JvmClasspathRoot(file: Path)
    | JavaSourceRoot(file: Path, packagePrefix: Option<string>)
    | KotlinSourceRoot(path: Path)

  /** The entries of the host `CompilerConfiguration` that the gate reads. */
  datatype CompilerEnv = CompilerEnv(
    contentRoots: Option<seq<ContentRoot>>,
    outputDirectory: Option<Path>,
    outputJar: Option<Path>,
    moduleName: Option<string>,
    modules: seq<string>)

  /** The outcome of the host's check that the javac internals kapt needs are
      reachable; when they are not, the check itself logs one error. */
  datatype JavacAccess = Granted | Denied(error: string)

  datatype Level = Error | Warning

  /** The two registration points of the host compiler the gate writes to. */
  datatype ExtensionPoint = AnalysisHandler | ContainerContributor

  /** The extensions the gate may install: kapt's processing extension, kapt's
      container contributor, or the fallback that skips code generation. */
  datatype Extension =
    | KaptExtension(options: KaptOptions, processors: seq<Processor>)
    | KaptComponentContributor
    | AbortAnalysisHandler

  /** An observable effect of the gate, in the order it happens. */
  datatype Event =
    | Logged(level: Level, text: string)
    | OptionsLogged(options: KaptOptions)
    | Registered(point: ExtensionPoint, extension: Extension)
}

=== FILE: kapt_registrar.dfy ===
/** The kapt activation gate (`KaptComponentRegistrar.registerProjectComponents`
    with its `checkOptions`) and the fallback extension it installs when kapt
    cannot run. The gate is a pure function from the handoff slot, the compiler
    configuration and the outcome of the javac access check to the sequence of
    events it causes: logged diagnostics and extension registrations. */
module KaptRegistrar {
  import opened Wrappers
  import opened KaptModel

  /** The processing-option key under which processors find the directory for
      generated Kotlin sources. */
  const GeneratedSourcesKey: string := "kapt.kotlin.generated"

  const JarOutputMessage: string :=
    "Kapt does not support specifying JAR file outputs. Please specify the classes output directory explicitly."

  const SourcesDirName: string := "Sources output directory"
  const ClassesDirName: string := "Classes output directory"
  const StubsDirName: string := "Stubs output directory"

  function MissingDirMessage(optionName: string, moduleName: string): string {
    optionName + " is not specified for " + moduleName + ", skipping annotation processing"
  }

  // ---------------------------------------------------------------------------
  // Partitioning the content roots

  datatype RootKind = Classpath | JavaSources

  predicate OfKind(root: ContentRoot, kind: RootKind) {
    match kind
    case Classpath => root.JvmClasspathRoot?
    case JavaSources => root.JavaSourceRoot?
  }

  /** `contentRoots.filterIsInstance<…>().map { it.file }`. */
  function FilesOfKind(roots: seq<ContentRoot>, kind: RootKind): seq<Path>
    decreases |roots|
  {
    if |roots| == 0 then []
    else (if OfKind(roots[0], kind) then [roots[0].file] else []) + FilesOfKind(roots[1..], kind)
  }

  /** Merges what the compiler knows into the launcher's builder
      (`KaptComponentRegistrar.kt` lines 44-51): classpath roots and java
      source roots are appended to the lists the launcher pre-populated, and
      the classes directory falls back to the compiler's output directory. */
  function MergeCompilerFacts(b: OptionsBuilder, env: CompilerEnv): (r: OptionsBuilder)
    ensures r == b.(compileClasspath := r.compileClasspath, javaSourceRoots := r.javaSourceRoots,
                    classesOutputDir := r.classesOutputDir)
    ensures b.compileClasspath <= r.compileClasspath && b.javaSourceRoots <= r.javaSourceRoots
    ensures env.contentRoots.GetOr([]) == [] ==> r.compileClasspath == b.compileClasspath && r.javaSourceRoots == b.javaSourceRoots
    ensures b.classesOutputDir.Some? ==> r.classesOutputDir == b.classesOutputDir
    ensures b.classesOutputDir.None? ==> r.classesOutputDir == env.outputDirectory
  {
    var roots := env.contentRoots.GetOr([]);
    b.(compileClasspath := b.compileClasspath + FilesOfKind(roots, Classpath),
       javaSourceRoots := b.javaSourceRoots + FilesOfKind(roots, JavaSources),
       classesOutputDir := b.classesOutputDir.OrElse(env.outputDirectory))
  }

  // ---------------------------------------------------------------------------
  // checkOptions

  predicate AllDirsSet(b: OptionsBuilder) {
    b.sourcesOutputDir.Some? && b.classesOutputDir.Some? && b.stubsOutputDir.Some?
  }

  /** The name of the first unset output directory in the order sources,
      classes, stubs; `None` stands for the `IllegalStateException` branch,
      which is taken exactly when nothing is missing. */
  function FirstMissingDir(b: OptionsBuilder): (r: Option<string>)
    ensures r.None? <==> AllDirsSet(b)
    ensures b.sourcesOutputDir.None? ==> r == Some(SourcesDirName)
    ensures b.sourcesOutputDir.Some? && b.classesOutputDir.None? ==> r == Some(ClassesDirName)
    ensures b.sourcesOutputDir.Some? && b.classesOutputDir.Some? && b.stubsOutputDir.None? ==> r == Some(StubsDirName)
  {
    if b.sourcesOutputDir.None? then Some(SourcesDirName)
    else if b.classesOutputDir.None? then Some(ClassesDirName)
    else if b.stubsOutputDir.None? then Some(StubsDirName)
    else None
  }

  /** Kotlin's `joinToString()` with its default separator: the items in
      order, `", "` between neighbours. */
  function JoinToString(items: seq<string>): (r: string)
    ensures |items| == 0 ==> r == ""
    ensures |items| == 1 ==> r == items[0]
    ensures |items| > 0 ==> items[0] <= r
    ensures |items| > 0 ==> |items[|items| - 1]| <= |r| && r[|r| - |items[|items| - 1]|..] == items[|items| - 1]
    ensures |items| > 1 ==> items[0] + ", " <= r
    decreases |items|
  {
    if |items| == 0 then ""
    else if |items| == 1 then items[0]
    else JoinToString(items[..|items| - 1]) + ", " + items[|items| - 1]
  }

  /** `JoinToString` read from the front: the first item, the separator, then
      the rest joined. Together with the empty and one-item cases this fixes
      every item's place, so no item is dropped or reordered. */
  lemma {:induction false} JoinToStringCons(items: seq<string>)
    requires |items| > 1
    ensures JoinToString(items) == items[0] + ", " + JoinToString(items[1..])
    decreases |items|
  {
    var init := items[..|items| - 1];
    var rest := items[1..];
    var last := items[|items| - 1];
    var head := items[0] + ", ";
    assert JoinToString(items) == JoinToString(init) + ", " + last;
    if |items| == 2 {
      assert JoinToString(rest) == last by {
        assert rest == [last];
      }
      assert JoinToString(init) == items[0] by {
        assert init == [items[0]];
      }
    } else {
      var middle := JoinToString(init[1..]);
      assert JoinToString(init) == head + middle by {
        JoinToStringCons(init);
      }
      assert JoinToString(rest) == middle + ", " + last by {
        assert init[1..] == rest[..|rest| - 1];
        assert rest[|rest| - 1] == last;
      }
      ConcatRegroup(head, middle, ", ", last);
    }
  }

  lemma ConcatRegroup(a: string, b: string, c: string, d: string)
    ensures (a + b) + c + d == a + (b + c + d)
  {
  }

  /** The module named in the warning: the configured module name, else the
      configured module list joined with commas. */
  function ModuleName(env: CompilerEnv): (r: string)
    ensures env.moduleName.Some? ==> r == env.moduleName.value
    ensures env.moduleName.None? ==> r == JoinToString(env.modules)
  {
    env.moduleName.GetOr(JoinToString(env.modules))
  }

  /** The outcome of `checkOptions`: whether kapt may run, the builder as
      `checkOptions` left it, and the events it caused. */
  datatype Check = Check(passed: bool, builder: OptionsBuilder, events: seq<Event>)

  const AbortAnalysis: Event := Registered(AnalysisHandler, AbortAnalysisHandler)

  /** `checkOptions`: the three validations in order, each stopping the rest. */
  function CheckOptions(b: OptionsBuilder, env: CompilerEnv, javac: JavacAccess): (r: Check)
    ensures r.passed <==> AllDirsSet(r.builder) && javac.Granted? && !(b.classesOutputDir.None? && env.outputJar.Some?)
    ensures r.passed ==> r.events == []
    ensures !r.passed ==> r.events == [] || (|r.events| == 2 && r.events[0].Logged? && r.events[1] == AbortAnalysis)
    ensures r.events == [] && !r.passed ==> r.builder.mode == WithCompilation
    ensures r.builder == b.(classesOutputDir := r.builder.classesOutputDir)
    ensures r.builder.classesOutputDir ==
      if b.classesOutputDir.None? && env.outputJar.None? then env.outputDirectory else b.classesOutputDir
  {
    if b.classesOutputDir.None? && env.outputJar.Some? then
      Check(false, b, [Logged(Error, JarOutputMessage), AbortAnalysis])
    else
      var b1 := if b.classesOutputDir.None? then b.(classesOutputDir := env.outputDirectory) else b;
      match FirstMissingDir(b1)
      case Some(optionName) =>
        if b1.mode != WithCompilation then
          Check(false, b1, [Logged(Warning, MissingDirMessage(optionName, ModuleName(env))), AbortAnalysis])
        else
          Check(false, b1, [])
      case None =>
        match javac
        case Denied(error) => Check(false, b1, [Logged(Error, error), AbortAnalysis])
        case Granted => Check(true, b1, [])
  }

  // ---------------------------------------------------------------------------
  // Finalizing the options

  /** `KaptComponentRegistrar.kt` lines 66-69: the generated-sources key is
      filled with the sources directory only when the launcher left it out;
      `None` stands for the `error("sourcesOutputDir should be set at this
      point")` branch. */
  function DefaultGeneratedSourcesOption(b: OptionsBuilder): (r: Option<OptionsBuilder>)
    ensures r.None? <==> GeneratedSourcesKey !in b.processingOptions && b.sourcesOutputDir.None?
    ensures GeneratedSourcesKey in b.processingOptions ==> r == Some(b)
    ensures GeneratedSourcesKey !in b.processingOptions && r.Some? ==> r.value.processingOptions == b.processingOptions[GeneratedSourcesKey := b.sourcesOutputDir.value]
    ensures r.Some? ==> r.value == b.(processingOptions := r.value.processingOptions)
    ensures r.Some? ==> GeneratedSourcesKey in r.value.processingOptions
    ensures r.Some? ==> forall k :: k in b.processingOptions ==> k in r.value.processingOptions && r.value.processingOptions[k] == b.processingOptions[k]
    ensures r.Some? ==> r.value.processingOptions.Keys == b.processingOptions.Keys + {GeneratedSourcesKey}
  {
    if GeneratedSourcesKey in b.processingOptions then Some(b)
    else match b.sourcesOutputDir
      case Some(dir) => Some(b.(processingOptions := b.processingOptions[GeneratedSourcesKey := dir]))
      case None => None
  }

  /** `KaptOptions.Builder.build()`, which fails when an output directory is
      unset; that failure is `None`. */
  function Build(b: OptionsBuilder): (r: Option<KaptOptions>)
    ensures r.Some? <==> AllDirsSet(b)
    ensures r.Some? ==> && r.value.sourcesOutputDir == b.sourcesOutputDir.value
                        && r.value.classesOutputDir == b.classesOutputDir.value
                        && r.value.stubsOutputDir == b.stubsOutputDir.value
                        && r.value.compileClasspath == b.compileClasspath
                        && r.value.javaSourceRoots == b.javaSourceRoots
                        && r.value.mode == b.mode
                        && r.value.flags == b.flags
                        && r.value.processingOptions == b.processingOptions
  {
    if AllDirsSet(b) then
      Some(KaptOptions(b.compileClasspath, b.javaSourceRoots, b.classesOutputDir.value, b.sourcesOutputDir.value,
                       b.stubsOutputDir.value, b.mode, b.flags, b.processingOptions))
    else None
  }

  // ---------------------------------------------------------------------------
  // registerProjectComponents

  /** The shape of an activation that aborted: one diagnostic, then the
      fallback extension. */
  predicate IsAbort(events: seq<Event>) {
    |events| == 2 && events[0].Logged? && events[1] == AbortAnalysis
  }

  /** The shape of a successful activation: at most the options dump, then the
      processing extension, then the container contributor. */
  predicate IsInstall(events: seq<Event>) {
    && 2 <= |events| <= 3
    && events[|events| - 2].Registered?
    && events[|events| - 2].point == AnalysisHandler
    && events[|events| - 2].extension.KaptExtension?
    && events[|events| - 1] == Registered(ContainerContributor, KaptComponentContributor)
    && (|events| == 3 ==> events[0] == OptionsLogged(events[1].extension.options))
  }

  /** The events of a successful activation: the options dump when verbose,
      then the processing extension and the container contributor, in order. */
  function InstallEvents(options: KaptOptions, processors: seq<Processor>): (r: seq<Event>)
    ensures IsInstall(r)
    ensures r[|r| - 2].extension == KaptExtension(options, processors)
    ensures |r| == 3 <==> Verbose in options.flags
    ensures AbortAnalysis !in r
  {
    (if Verbose in options.flags then [OptionsLogged(options)] else [])
    + [Registered(AnalysisHandler, KaptExtension(options, processors)),
       Registered(ContainerContributor, KaptComponentContributor)]
  }

  /** `registerProjectComponents`, reading the handoff slot `slot`. Without a
      configuration, or with no processors, nothing happens; otherwise the
      activation either does nothing, aborts with exactly one diagnostic and
      the fallback, or installs kapt, and never more than one of these. */
  function RegisterProjectComponents(slot: Option<KaptConfiguration>, env: CompilerEnv, javac: JavacAccess): (r: seq<Event>)
    ensures slot.None? ==> r == []
    ensures slot.Some? && slot.value.processors == [] ==> r == []
    ensures r == [] || IsAbort(r) || IsInstall(r)
  {
    match slot
    case None => []
    case Some(config) =>
      if |config.processors| == 0 then []
      else
        var check := CheckOptions(MergeCompilerFacts(config.options, env), env, javac);
        if !check.passed then check.events
        else
          match DefaultGeneratedSourcesOption(check.builder)
          case None => assert false; []
          case Some(b) =>
            match Build(b)
            case None => assert false; []
            case Some(options) => InstallEvents(options, config.processors)
  }

  // ---------------------------------------------------------------------------
  // The fallback extension

  datatype BindingContext = BindingContext(id: nat)
  datatype BindingTrace = BindingTrace(bindingContext: BindingContext)
  datatype ModuleDescriptor = ModuleDescriptor(name: string)
  datatype KtFile = KtFile(name: string)

  /** The host's `AnalysisResult`, reduced to the successful result the
      fallback produces (with or without code generation). */
  datatype AnalysisResult =
    | Success(bindingContext: BindingContext, moduleDescriptor: ModuleDescriptor, shouldGenerateCode: bool)

  /** `AbortAnalysisHandlerExtension.doAnalysis`: analysis succeeds with the
      trace's binding context and code generation switched off, whatever the
      files. */
  function AbortDoAnalysis(moduleDescriptor: ModuleDescriptor, files: seq<KtFile>, trace: BindingTrace): (r: Option<AnalysisResult>)
    ensures r.Some?
    ensures !r.value.shouldGenerateCode
    ensures r.value.bindingContext == trace.bindingContext && r.value.moduleDescriptor == moduleDescriptor
  {
    Some(Success(trace.bindingContext, moduleDescriptor, false))
  }

  /** `AbortAnalysisHandlerExtension.analysisCompleted`: the same answer. */
  function AbortAnalysisCompleted(moduleDescriptor: ModuleDescriptor, trace: BindingTrace, files: seq<KtFile>): (r: Option<AnalysisResult>)
    ensures r.Some?
    ensures !r.value.shouldGenerateCode
    ensures r.value.bindingContext == trace.bindingContext && r.value.moduleDescriptor == moduleDescriptor
  {
    Some(Success(trace.bindingContext, moduleDescriptor, false))
  }
}

=== FILE: message_collector.dfy ===
/** The in-memory diagnostic sink used during a compilation run: an append-only
    message buffer plus an error latch that `Clear` deliberately leaves set.

    The severity type is a parameter `S`, and whether a severity is an error is
    the caller-supplied classification `isError` (the host compiler's
    `CompilerMessageSeverity.isError`, which is not part of this model). */
module MessageCollector {
  import opened Wrappers

  datatype Location = Location(path: string, line: int, column: int)

  /** One reported message; immutable once created. */
  datatype CompilationMessage<S> = CompilationMessage(location: Option<Location>, message: string, severity: S)

  /** The collector's state: the error latch and the current buffer. */
  datatype Collector<S> = Collector(hasErrors: bool, buffer: seq<CompilationMessage<S>>)

  /** A freshly created collector: no messages, latch down. */
  function New<S>(): (r: Collector<S>)
    ensures !HasErrors(r) && Messages(r) == []
  {
    Collector(false, [])
  }

  /** `report`: appends exactly one message at the end and raises the latch
      when the severity is an error; nothing earlier in the buffer moves. */
  function Report<S>(c: Collector<S>, isError: S -> bool, severity: S, message: string, location: Option<Location>): (r: Collector<S>)
    ensures |r.buffer| == |c.buffer| + 1
    ensures r.buffer[..|c.buffer|] == c.buffer
    ensures r.buffer[|c.buffer|] == CompilationMessage(location, message, severity)
    ensures isError(severity) ==> r.hasErrors
    ensures !isError(severity) ==> r.hasErrors == c.hasErrors
  {
    Collector(c.hasErrors || isError(severity), c.buffer + [CompilationMessage(location, message, severity)])
  }

  /** `clear`: empties the buffer; the latch is kept as it was. */
  function Clear<S>(c: Collector<S>): (r: Collector<S>)
    ensures r.buffer == []
    ensures r.hasErrors == c.hasErrors
  {
    c.(buffer := [])
  }

  /** `hasErrors()`. */
  function HasErrors<S>(c: Collector<S>): bool {
    c.hasErrors
  }

  /** `messages`: a snapshot of the buffer. Being a value, a snapshot can never
      be changed by later operations on the collector. */
  function Messages<S>(c: Collector<S>): seq<CompilationMessage<S>> {
    c.buffer
  }

  /** The operations a client can perform; a sequence of them is the history
      of a collector since its creation. */
  datatype Op<S> = ReportOp(severity: S, message: string, location: Option<Location>) | ClearOp

  function Apply<S>(c: Collector<S>, isError: S -> bool, op: Op<S>): Collector<S> {
    match op
    case ReportOp(s, m, l) => Report(c, isError, s, m, l)
    case ClearOp => Clear(c)
  }

  /** The collector reached from `c` by performing `ops` in order. */
  function Run<S>(c: Collector<S>, isError: S -> bool, ops: seq<Op<S>>): Collector<S>
    decreases |ops|
  {
    if |ops| == 0 then c else Apply(Run(c, isError, ops[..|ops| - 1]), isError, ops[|ops| - 1])
  }

  /** Some error-severity message was reported somewhere in the history,
      whether or not a later clear removed it from the buffer. */
  ghost predicate ErrorReported<S>(isError: S -> bool, ops: seq<Op<S>>) {
    exists i :: 0 <= i < |ops| && ops[i].ReportOp? && isError(ops[i].severity)
  }

  predicate NoClear<S>(ops: seq<Op<S>>) {
    forall i :: 0 <= i < |ops| ==> ops[i].ReportOp?
  }

  /** The messages carried by the report operations of a history, in order. */
  function Reported<S>(ops: seq<Op<S>>): seq<CompilationMessage<S>>
    decreases |ops|
  {
    if |ops| == 0 then []
    else
      var last := ops[|ops| - 1];
      Reported(ops[..|ops| - 1]) + (if last.ReportOp? then [CompilationMessage(last.location, last.message, last.severity)] else [])
  }

  /** The position just after the last clear of a history (0 when there is
      none): every operation from there on is a report. */
  function LastClearEnd<S>(ops: seq<Op<S>>): (k: nat)
    ensures k <= |ops|
    ensures k > 0 ==> ops[k - 1].ClearOp?
    ensures forall i :: k <= i < |ops| ==> ops[i].ReportOp?
    decreases |ops|
  {
    if |ops| == 0 then 0
    else if ops[|ops| - 1].ClearOp? then |ops|
    else
      var init := ops[..|ops| - 1];
      var k := LastClearEnd(init);
      assert forall i :: k <= i < |init| ==> ops[i] == init[i];
      k
  }

  /** The history after its last clear (all of it when there is none). */
  function SinceLastClear<S>(ops: seq<Op<S>>): seq<Op<S>> {
    ops[LastClearEnd(ops)..]
  }

  /** `hasErrors` is exactly "an error was reported since creation", measured
      over the whole history rather than the current buffer. */
  lemma {:induction false} HasErrorsIffErrorReported<S>(isError: S -> bool, ops: seq<Op<S>>)
    ensures HasErrors(Run(New(), isError, ops)) <==> ErrorReported(isError, ops)
    decreases |ops|
  {
    if |ops| > 0 {
      var init := ops[..|ops| - 1];
      var last := ops[|ops| - 1];
      HasErrorsIffErrorReported(isError, init);
      assert ErrorReported(isError, ops) <==> ErrorReported(isError, init) || (last.ReportOp? && isError(last.severity)) by {
        if ErrorReported(isError, ops) {
          var i :| 0 <= i < |ops| && ops[i].ReportOp? && isError(ops[i].severity);
          if i < |init| {
            assert init[i] == ops[i];
          }
        }
        if ErrorReported(isError, init) {
          var i :| 0 <= i < |init| && init[i].ReportOp? && isError(init[i].severity);
          assert ops[i] == init[i];
        }
      }
    }
  }

  /** The latch is monotone: once raised, no sequence of reports and clears
      lowers it. */
  lemma {:induction false} HasErrorsMonotone<S>(c: Collector<S>, isError: S -> bool, ops: seq<Op<S>>)
    requires HasErrors(c)
    ensures HasErrors(Run(c, isError, ops))
    decreases |ops|
  {
    if |ops| > 0 {
      HasErrorsMonotone(c, isError, ops[..|ops| - 1]);
    }
  }

  /** Without clears, the buffer is the old buffer followed by every reported
      message, in reporting order. */
  lemma {:induction false} BufferAppendsReports<S>(c: Collector<S>, isError: S -> bool, ops: seq<Op<S>>)
    requires NoClear(ops)
    ensures Run(c, isError, ops).buffer == c.buffer + Reported(ops)
    decreases |ops|
  {
    if |ops| > 0 {
      var init := ops[..|ops| - 1];
      assert NoClear(init) by {
        forall i | 0 <= i < |init| ensures init[i].ReportOp? {
          assert init[i] == ops[i];
        }
      }
      BufferAppendsReports(c, isError, init);
      assert ops[|ops| - 1].ReportOp?;
    }
  }

  /** The buffer holds exactly the messages reported after the last clear, in
      order; a history with no clear keeps the starting buffer in front. */
  lemma {:induction false} BufferIsReportsSinceLastClear<S>(c: Collector<S>, isError: S -> bool, ops: seq<Op<S>>)
    ensures NoClear(ops) ==> Messages(Run(c, isError, ops)) == Messages(c) + Reported(ops)
    ensures !NoClear(ops) ==> Messages(Run(c, isError, ops)) == Reported(SinceLastClear(ops))
    decreases |ops|
  {
    if NoClear(ops) {
      BufferAppendsReports(c, isError, ops);
    } else {
      var k := LastClearEnd(ops);
      var tail := ops[k..];
      assert k > 0;
      assert NoClear(tail);
      var prefix := ops[..k];
      assert prefix[..|prefix| - 1] == ops[..k - 1];
      assert Run(c, isError, prefix).buffer == [];
      RunSplit(c, isError, prefix, tail);
      assert prefix + tail == ops;
      BufferAppendsReports(Run(c, isError, prefix), isError, tail);
    }
  }

  /** Running a history in two parts is running it whole. */
  lemma {:induction false} RunSplit<S>(c: Collector<S>, isError: S -> bool, a: seq<Op<S>>, b: seq<Op<S>>)
    ensures Run(c, isError, a + b) == Run(Run(c, isError, a), isError, b)
    decreases |b|
  {
    if |b| == 0 {
      assert a + b == a;
    } else {
      var b' := b[..|b| - 1];
      RunSplit(c, isError, a, b');
      assert (a + b)[..|a + b| - 1] == a + b';
      assert (a + b)[|a + b| - 1] == b[|b| - 1];
    }
  }

  /** A snapshot taken earlier is a prefix of any later snapshot as long as
      nothing cleared the collector in between, and each report adds one. */
  lemma {:induction false} SnapshotIsPrefixOfLater<S>(c: Collector<S>, isError: S -> bool, ops: seq<Op<S>>)
    requires NoClear(ops)
    ensures Messages(c) <= Messages(Run(c, isError, ops))
    ensures |Messages(Run(c, isError, ops))| == |Messages(c)| + |ops|
    decreases |ops|
  {
    if |ops| > 0 {
      var init := ops[..|ops| - 1];
      assert NoClear(init) by {
        forall i | 0 <= i < |init| ensures init[i].ReportOp? {
          assert init[i] == ops[i];
        }
      }
      SnapshotIsPrefixOfLater(c, isError, init);
      assert ops[|ops| - 1].ReportOp?;
    }
  }

  /** The documented scenario: an error and a warning are reported, both are
      visible in order and the latch is up; a clear empties the buffer and the
      latch stays up. */
  lemma ErrorThenWarningThenClear<S>(isError: S -> bool, err: S, warn: S, x: string, y: string)
    requires isError(err) && !isError(warn)
    ensures var c := Run(New(), isError, [ReportOp(err, x, None), ReportOp(warn, y, None)]);
      && Messages(c) == [CompilationMessage(None, x, err), CompilationMessage(None, y, warn)]
      && HasErrors(c)
      && Messages(Clear(c)) == []
      && HasErrors(Clear(c))
  {
    var ops := [ReportOp(err, x, None), ReportOp(warn, y, None)];
    assert ops[..1] == [ops[0]];
    assert ops[..1][..0] == [];
    assert Run(New(), isError, ops[..1][..0]) == New();
    var c1 := Run(New(), isError, ops[..1]);
    assert c1 == Report(New(), isError, err, x, None);
    assert c1 == Collector(true, [CompilationMessage(None, x, err)]);
    assert Run(New(), isError, ops) == Report(c1, isError, warn, y, None);
  }
}

=== FILE: wrappers.dfy ===
/** The nullable values of the Kotlin source (`T?`) as an explicit Option. */
module Wrappers {

  datatype Option<+T> = None | Some(value: T) {

    /** Kotlin's elvis operator `this ?: default`. */
    function GetOr(default: T): T {
      match this
      case Some(v) => v
      case None => default
    }

    /** Kotlin's `this ?: other` where `other` is itself nullable. */
    function OrElse(other: Option<T>): Option<T> {
      if Some? then this else other
    }
  }
}
